=== FILE: README.md ===
# Connection-Map aggregation engine, modelled in Dafny

Connection-Map listens to the syslog of a Cisco ASA firewall and draws a world
map of the remote ends of the TCP connections currently open through it. This
project models the engine behind that map, in the source's own terms:

- **Store** (`store.dfy`): the `increment`/`decrement` counters. They map each
  grid cell to the number of connections open into it and remove a cell whose
  count reaches zero. They are refined against a multiset of the cells of the
  open connections.
- **Bucketizer** (`bucketizer.dfy`): `classify`. It turns a latitude and
  longitude into a cell of the 720 x 360 grid, with `Math.round` modelled as
  `floor(x + 1/2)` over the reals.
- **LinePattern** (`linepattern.dfy`): the `OPEN` and `CLOSE` patterns used with
  `Matcher.matches()`.
  - A whole-line match is a split of the line `A · id · B · "outside:" · C · "/" · D`.
  - The captured address is the C of the split a backtracking matcher
    commits to.
  - Search functions find that split and are proved to find it.
- **Processing** (`processing.dfy`): one wake of the parse thread. It drains
  the queue through the classifier, the lookup and the store. The geolocation
  lookup is a parameter returning a location, `null` or a thrown
  `GeoIp2Exception`.
- **ParseThread** (`parsethread.dfy`): the listener/parse-thread hand-off, run
  sequentially: push a line, wake, drain.
- **Pixels** (`pixels.dfy`): the `(x << 16) | y` pack of land pixels and its
  unpack with `>> 16` and `& 0xffff`. Java's 32-bit bit operations are written
  out over integers.
- **Pan** (`pan.dfy`): `panX` and `panY`, which move the view offsets with
  `(offset + amount + size) % size`.
- **Render** (`render.dfy`): where `renderImage` plots counted cells and land
  pixels.
- **JavaInt** (`javaint.dfy`) and **Grid** (`grid.dfy`) are shared. JavaInt
  holds Java `int` wrap-around and the truncating `%` and `/`. Grid holds the
  grid's size and cell key.

## Failed lookups

A failed lookup does not simply drop the event; what happens depends on how
the lookup fails:

- **Null lookup.** A lookup that returns `null` (an `IOException`, such as an
  unknown host) is passed straight to `classify`. `classify` reads
  `location[0]`, and the `NullPointerException` ends the parse thread for good.
  This happens on an Open line and on a Close line alike. The `location != null`
  test after `classify` can never see `null`.
- **GeoIp2Exception.** It is caught outside the draining loop. The failing line
  is consumed, and the lines behind it wait for the next wake.

## Unanchored message ids

The patterns look for `302013` and `302014` anywhere before "outside:", not
in the message-id field. A line whose connection number contains one of
them matches that pattern too: a UDP `302015` line with connection number
8302013 counts as an Open, and so does a `302014` Teardown with connection
number 1302013, since the Open pattern is tried first. Such a Teardown
increments the store instead of decrementing it.
`LinePattern.TeardownCountedAsOpen` exhibits a concrete Teardown line that
is classified as an Open.

## Model

| member | source | states |
|---|---|---|
| Store.Increment | src/com/wjholden/tcpmonitor/ConnectionMap.java:110-116 | the cell's count becomes its old count plus one (absent counts as 0), the cell is a key afterwards, every other cell's count is unchanged, and all-positive counts stay positive |
| Store.Decrement | src/com/wjholden/tcpmonitor/ConnectionMap.java:118-127 | an absent cell leaves the store unchanged, a count of one removes the key, any other count drops by one, other cells are untouched, and all-positive counts stay positive |
| Store.DecrementUndoesIncrement | src/com/wjholden/tcpmonitor/ConnectionMap.java:110-127 | a decrement right after an increment of the same cell restores the store exactly, when no zero entry was stored |
| Store.IncrementRefines | src/com/wjholden/tcpmonitor/ConnectionMap.java:110-116 | an increment adds one occurrence of the cell to the multiset of open connections the store represents |
| Store.DecrementRefines | src/com/wjholden/tcpmonitor/ConnectionMap.java:118-127 | a decrement removes one occurrence of the cell from the represented multiset, and none when there is none |
| Store.RepresentsMembership | src/com/wjholden/tcpmonitor/ConnectionMap.java:110-127 | a cell is a key of the store exactly when some open connection lies in it |
| Bucketizer.Round | src/com/wjholden/tcpmonitor/ConnectionMap.java:221-223 | rounding gives the integer within half a unit of its argument, with halves rounded up |
| Bucketizer.DivOfMultiple | src/com/wjholden/tcpmonitor/ConnectionMap.java:221-223 | Java's truncating division of an exact multiple gives the multiplier back, for negative dividends as well |
| Bucketizer.ClassifyRounded | src/com/wjholden/tcpmonitor/ConnectionMap.java:220-226 | for rounded degrees a and b, `a*HEIGHT/180` is the row 2a and `b*WIDTH/360` is the column 2b, whenever the product does not overflow |
| Bucketizer.Classify | src/com/wjholden/tcpmonitor/ConnectionMap.java:220-226 | a latitude in [-90,90] and a longitude in [-180,180] give a cell on the grid whose row is twice the rounded latitude + 90 and whose column is twice the rounded longitude + 180 |
| Bucketizer.ClassifyOnGrid | src/com/wjholden/tcpmonitor/ConnectionMap.java:42-43 | a latitude in [-90,90] and a longitude in [-180,180] land on the grid, both far edges included, in the even row and column of the nearest whole degree, within half a degree of the point (odd rows and columns are never used) |
| Bucketizer.ClassifyReachesEdges | src/com/wjholden/tcpmonitor/ConnectionMap.java:221-225 | the grid's upper bounds are reached: (90,180) gives (WIDTH,HEIGHT) and (-90,-180) gives (0,0) |
| LinePattern.FirstSlash | src/com/wjholden/tcpmonitor/ConnectionMap.java:38 | the lazy `(.+?)` stops at the first '/' after where it starts, and none lies before it |
| LinePattern.LastOutside | src/com/wjholden/tcpmonitor/ConnectionMap.java:39 | the greedy `.+` backs off to the last "outside:" that can still be followed by a capture and a '/' |
| LinePattern.LastId | src/com/wjholden/tcpmonitor/ConnectionMap.java:38-39 | the greedy leading `.*` backs off to the last message id that can still be completed |
| LinePattern.SplitCompletesOutside | src/com/wjholden/tcpmonitor/ConnectionMap.java:38-39 | in every decomposition the "outside:" clause is one the search can complete |
| LinePattern.SplitCompletesId | src/com/wjholden/tcpmonitor/ConnectionMap.java:38-39 | in every decomposition the message id is one the search can complete |
| LinePattern.FindSplit | src/com/wjholden/tcpmonitor/ConnectionMap.java:151-152 | the search finds the backtracking-preferred decomposition whenever any decomposition exists, and reports none only when none exists |
| LinePattern.Capture | src/com/wjholden/tcpmonitor/ConnectionMap.java:153 | `group(1)` exists exactly when the whole line matches, and it is the C of the preferred decomposition |
| LinePattern.Parse | src/com/wjholden/tcpmonitor/ConnectionMap.java:151-159 | a line is Open exactly when it matches the 302013 pattern, Close exactly when it does not but matches the 302014 one, and unrecognized otherwise; the address is the preferred capture |
| LinePattern.CapturedAddressShape | src/com/wjholden/tcpmonitor/ConnectionMap.java:38-39 | a captured address is non-empty, directly follows "outside:", is directly followed by '/', and holds no '/' after its first character |
| LinePattern.OtherIdsUnrecognized | src/com/wjholden/tcpmonitor/ConnectionMap.java:34-39 | a line in which neither 302013 nor 302014 occurs anywhere is not an event |
| LinePattern.TeardownCountedAsOpen | src/com/wjholden/tcpmonitor/ConnectionMap.java:38-39 | the ids are not anchored: a 302014 Teardown line whose connection number contains 302013 before "outside:" matches both patterns, and is classified as an Open |
| Processing.StepLine | src/com/wjholden/tcpmonitor/ConnectionMap.java:150-163 | an unrecognized line changes nothing; a located Open increments and a located Close decrements the located cell; a null lookup crashes and a thrown lookup stops |
| Processing.Drain | src/com/wjholden/tcpmonitor/ConnectionMap.java:149-170 | all-positive counts stay positive, and a drain that did not finish leaves a strict suffix of the queue, in order |
| Processing.DrainAppend | src/com/wjholden/tcpmonitor/ConnectionMap.java:149-150 | lines are handled oldest first: draining two queues in a row is draining the first, then the second only if the first finished, and a stop or crash keeps the second queued behind the rest |
| Processing.DrainSkipsUnrecognized | src/com/wjholden/tcpmonitor/ConnectionMap.java:157-159 | a line matching neither pattern is consumed and changes nothing |
| Processing.DrainStopsOnLookupError | src/com/wjholden/tcpmonitor/ConnectionMap.java:168-170 | a lookup that throws ends the drain with the failing line consumed, the store unchanged by it, and every later line still queued |
| Processing.DrainCrashesOnNullLocation | src/com/wjholden/tcpmonitor/ConnectionMap.java:153-161 | a null lookup for an Open or a Close ends the parse thread with the store unchanged by that line |
| Processing.OpenThenCloseRestores | src/com/wjholden/tcpmonitor/ConnectionMap.java:152-161 | an Open and then a Close of the same located address leave the store as it was |
| Processing.UnmatchedCloseIsNoOp | src/com/wjholden/tcpmonitor/ConnectionMap.java:159-161 | a Close for a cell with no open connection leaves the store unchanged |
| Processing.DrainRefines | src/com/wjholden/tcpmonitor/ConnectionMap.java:149-164 | a drain that finishes leaves a store representing the reference multiset of open cells: opens added, closes removed, other lines ignored |
| ParseThread.Push | src/com/wjholden/tcpmonitor/SyslogListener.java:25-27 | a received line is appended to the tail of the queue, and nothing else changes |
| ParseThread.Wake | src/com/wjholden/tcpmonitor/ConnectionMap.java:145-172 | a dead parse thread changes nothing; a live one leaves a suffix of the queue, a shorter one when there was work, and keeps all counts positive |
| ParseThread.Deliver | src/com/wjholden/tcpmonitor/SyslogListener.java:25-27 | a line arriving while the parse thread is dead only joins the queue; a live thread with nothing queued consumes it, whatever its fate; a line that is not an event then changes nothing; counts stay positive |
| ParseThread.DeliverAll | src/com/wjholden/tcpmonitor/ConnectionMap.java:145-172 | over any run of arrivals, counts stay positive and a dead thread stays dead |
| ParseThread.DeadThreadFreezesStore | src/com/wjholden/tcpmonitor/ConnectionMap.java:144-173 | after the parse thread dies, arriving lines only queue up and the store never changes |
| ParseThread.NullLookupStopsCounting | src/com/wjholden/tcpmonitor/ConnectionMap.java:153-155 | one null lookup ends all counting: no later line changes the store |
| ParseThread.LookupErrorThenOpenCounts | src/com/wjholden/tcpmonitor/ConnectionMap.java:165-170 | a thrown lookup costs only its own line: an Open arriving next is counted as usual |
| ParseThread.LeftoverLinesDrainFirst | src/com/wjholden/tcpmonitor/ConnectionMap.java:146-149 | lines left queued by a stopped drain are drained, ahead of the new line, on the next wake |
| Pixels.Unsigned | src/com/wjholden/tcpmonitor/ConnectionMap.java:238 | an `int` read as its 32-bit two's complement pattern: itself when non-negative, plus 2^32 when negative |
| Pixels.ShiftLeft16 | src/com/wjholden/tcpmonitor/ConnectionMap.java:203 | `x << 16` of a 16-bit column has the column in the high half of its pattern and a clear low half, and is `x * 65536` itself below 32768 |
| Pixels.Or | src/com/wjholden/tcpmonitor/ConnectionMap.java:203 | or-ing in 0 changes nothing, and or-ing a 16-bit number into a word whose low half is clear adds it to the pattern |
| Pixels.Pack | src/com/wjholden/tcpmonitor/ConnectionMap.java:203 | for a 16-bit column and row, the or of `x << 16` and `y` holds the column in its high 16 bits and the row in its low 16 |
| Pixels.BitOrDisjoint | src/com/wjholden/tcpmonitor/ConnectionMap.java:203 | or-ing bits below bit k into a number whose low k bits are clear adds them |
| Pixels.PackRoundTrip | src/com/wjholden/tcpmonitor/ConnectionMap.java:237-238 | `>> 16` and `& 0xffff` give back a packed column below 32768 and any 16-bit row |
| Pixels.PackRoundTripFailsAboveHalf | src/com/wjholden/tcpmonitor/ConnectionMap.java:185-186 | against the documented 65536 x 65536, every column from 32768 to 65535 comes back negative, 65536 too small |
| Pixels.PackRoundTripUnsigned | src/com/wjholden/tcpmonitor/ConnectionMap.java:184-186 | read with `>>> 16`, every 16-bit column and row round-trips |
| Pixels.UnpackXUnsigned | src/com/wjholden/tcpmonitor/ConnectionMap.java:237 | `>>> 16` is the high half of the pattern: a 16-bit number h with the pattern in [h * 65536, (h+1) * 65536) |
| Pixels.UnpackX | src/com/wjholden/tcpmonitor/ConnectionMap.java:237 | `>> 16` is the high half of the pattern read as a signed 16-bit number: 65536 less than `>>> 16` when its top bit is set |
| Pixels.UnpackY | src/com/wjholden/tcpmonitor/ConnectionMap.java:238 | `& 0xffff` is the low half of the pattern, which with the high half makes up the whole pattern |
| Pixels.UnsignedAgreesOnNonNegative | src/com/wjholden/tcpmonitor/ConnectionMap.java:237 | the signed and unsigned shifts agree on every non-negative word |
| Pan.Shift | src/com/wjholden/tcpmonitor/ConnectionMapPanel.java:48 | without overflow, a non-negative sum gives the offset moved by the amount modulo the size, and a negative one a result in (-size, 0] |
| Pan.ShiftStaysInRange | src/com/wjholden/tcpmonitor/ConnectionMapPanel.java:47-53 | an offset in [0,size) stays there for any amount above -size whose sum `offset + amount + size` does not overflow |
| Pan.ShiftInverse | src/com/wjholden/tcpmonitor/ConnectionMapPanel.java:48 | moving by an amount of less than one size and back by its negation restores the offset |
| Pan.PanX | src/com/wjholden/tcpmonitor/ConnectionMapPanel.java:47-49 | only xoffset changes, and an xoffset in [0,WIDTH) becomes (xoffset + amount) mod WIDTH for any amount above -WIDTH whose sum `xoffset + amount + WIDTH` does not overflow |
| Pan.PanY | src/com/wjholden/tcpmonitor/ConnectionMapPanel.java:51-53 | only yoffset changes, and a yoffset in [0,HEIGHT) becomes (yoffset + amount) mod HEIGHT for any amount above -HEIGHT whose sum `yoffset + amount + HEIGHT` does not overflow |
| Pan.PanXInverse | src/com/wjholden/tcpmonitor/ConnectionMapPanel.java:47-49 | for -WIDTH < a < WIDTH and an xoffset in [0,WIDTH), `panX(a)` then `panX(-a)` restores the view |
| Pan.PanYInverse | src/com/wjholden/tcpmonitor/ConnectionMapPanel.java:51-53 | for -HEIGHT < a < HEIGHT and a yoffset in [0,HEIGHT), `panY(a)` then `panY(-a)` restores the view |
| Pan.PanRightMoves | src/com/wjholden/tcpmonitor/ConnectionMapFrame.java:110-111 | n presses of the right arrow, each a `panX(1)`, move xoffset by n modulo WIDTH |
| Pan.PanRightFullTurn | src/com/wjholden/tcpmonitor/ConnectionMapPanel.java:48 | WIDTH consecutive `panX(1)` calls bring the view back to where it started |
| Render.CellPosition | src/com/wjholden/tcpmonitor/ConnectionMap.java:256-258 | a counted cell on the grid is plotted on the image, at its column and flipped row moved by the offsets, modulo the image size |
| Render.CellColumn | src/com/wjholden/tcpmonitor/ConnectionMap.java:256-258 | a counted cell's column on the grid lands in its column moved by xoffset, modulo WIDTH |
| Render.CellRow | src/com/wjholden/tcpmonitor/ConnectionMap.java:257-258 | a counted cell's row on the grid lands in its row flipped and moved by yoffset, modulo HEIGHT |
| Render.CellColumnMoves | src/com/wjholden/tcpmonitor/ConnectionMap.java:258 | moving xoffset by a, modulo WIDTH, moves a cell's image column by a, modulo WIDTH |
| Render.CellRowMoves | src/com/wjholden/tcpmonitor/ConnectionMap.java:257-258 | moving yoffset by a, modulo HEIGHT, moves a cell's image row by a, modulo HEIGHT |
| Render.PanMovesCells | src/com/wjholden/tcpmonitor/ConnectionMap.java:258 | for -WIDTH < a < WIDTH and offsets on the image, panning horizontally by a moves every counted cell a pixels across the image, wrapping, and leaves its height alone |
| Render.PanMovesCellsVertically | src/com/wjholden/tcpmonitor/ConnectionMap.java:257-258 | for -HEIGHT < a < HEIGHT and offsets on the image, panning vertically by a moves every counted cell a pixels down the image, wrapping, and leaves its column alone |
| Render.EdgesShareImageLines | src/com/wjholden/tcpmonitor/ConnectionMap.java:256-258 | the two poles share one image row and longitudes -180 and 180 share one image column |
| Render.LandColumn | src/com/wjholden/tcpmonitor/ConnectionMap.java:246 | for a column below 32768 the plotted column is the column moved by xoffset and 20, modulo WIDTH |
| Render.LandRow | src/com/wjholden/tcpmonitor/ConnectionMap.java:246 | the plotted row is the row moved by yoffset and -1, modulo HEIGHT, except -1 when the row and yoffset are both 0 |
| Render.EarthPosition | src/com/wjholden/tcpmonitor/ConnectionMap.java:237-246 | a land pixel's plotted column is on the image for a non-negative packed word |
| Render.EarthPositionLeavesImage | src/com/wjholden/tcpmonitor/ConnectionMap.java:246 | a land pixel of the image's size is plotted off the image exactly when its row and yoffset are both 0, and then in row -1 |
| Render.EarthPositionCorrected | src/com/wjholden/tcpmonitor/ConnectionMap.java:246 | with `>>> 16` and non-negative remainders, every packed word is plotted on the image |
| Render.EarthPositionCorrectedMoves | src/com/wjholden/tcpmonitor/ConnectionMap.java:246 | the corrected plot moves every 16-bit pixel by the alignment constants and the offsets, modulo the image size |
| Render.EarthPositionsAgreeOnWord | src/com/wjholden/tcpmonitor/ConnectionMap.java:237-246 | for every non-negative packed word, wherever the plot as written lands on the image, the corrected plot agrees with it |
| Render.EarthPositionAgreesOnImage | src/com/wjholden/tcpmonitor/ConnectionMap.java:237-246 | wherever the plot as written lands on the image, the corrected plot agrees with it |

## Left out

- The syslog listeners (`SyslogListener`, `MulticastSyslogListener`,
  `UnicastSyslogListener`) are UDP socket I/O. Only their append-and-notify
  is modelled, as `ParseThread.Push`. The listener drops the last received
  byte (`SyslogListener.java:24`); lines enter the model as they stand after
  that trim.
- Threads, `lock.wait()`/`notifyAll()`, daemon flags and the
  `ConcurrentHashMap` are left out. The store is a sequential map, and each
  arrival's notification wakes the parse thread once. A notification that
  arrives while the parse thread is busy (and is lost) is not modelled.
- `InterruptedException` on `lock.wait()` is not modelled. Nothing in the
  program interrupts the parse thread.
- The MaxMind database and `InetAddress.getByName` are foreign calls. They
  are the `geo` parameter, with the three outcomes above.
- Lookups are a fixed function of the address for the whole run. That holds
  for IP literals looked up in the database held in memory. It does not hold
  for host names, which `getByName` resolves through DNS on every line, so
  the answer can change between an Open and its Close. A Close whose lookup
  fails after its Open's lookup succeeded, which leaves the count behind, is
  therefore not expressible.
- A database record without coordinates makes the unboxing of
  `getLatitude()`/`getLongitude()` throw a `NullPointerException`, which ends
  the parse thread. It is modelled as the `Null` outcome, which has the same
  effect.
- Floating point: latitudes and longitudes are reals, and `Math.round` is
  `floor(x + 1/2)`. The rounding of the double additions `location[0] + 90`
  and `location[1] + 180`, and `Math.round`'s saturation to `long`, are not
  modelled. The `(int)` narrowing that follows is modelled, as `Wrap`. For
  coordinates a lookup returns, the saturation cannot happen.
- The `AffineTransform` scaling, `getPreferredSize`, the Swing frame, key
  dispatch, the colour helpers `moreGreen`/`lessGreen`, `GREEN` and the `EARTH`
  selector are drawing and window state. They are left out.
- `readMap`'s resource loading and `Scanner` parsing are I/O; only the pack
  of each pair is modelled. `BufferedImage.setRGB` is not modelled: a plotted
  position is a `Render.Point`, and `OnImage` says whether `setRGB` accepts it.
- Store.Increment: the count is an unbounded integer, and the 32-bit
  wrap-around after 2^31 - 1 open connections in one cell is not modelled.
- Pan.Shift: the result is stated for sums that do not overflow. When
  `offset + amount + size` overflows, the result is only known to be a
  32-bit `int`.
- Render.EarthPosition: only the column is bounded. The row is deliberately
  not, because it can be -1; `Render.EarthPositionLeavesImage` says exactly
  when.
- LinePattern.Parse: no concrete firewall line is worked through. The
  contracts are stated for every line.

## Findings

| source | as written | input that shows it | evidently intended | confidence | as-written member | corrected member |
|---|---|---|---|---|---|---|
| src/com/wjholden/tcpmonitor/ConnectionMap.java:237 | `pixel >> 16` copies the sign bit, so a column of 32768 or more comes back negative, although lines 185-186 promise 65536 x 65536 | column 32768, row 0: the pack is `0x80000000`, and `>> 16` gives -32768 | `pixel >>> 16`, which gives back every 16-bit column | not executed; the arithmetic is certain, but the bundled maps are documented as 720 x 360 (lines 63-67), so their columns stay far below 32768 | Pixels.PackRoundTripFailsAboveHalf | Pixels.PackRoundTripUnsigned |
| src/com/wjholden/tcpmonitor/ConnectionMap.java:246 | `(y + yoffset - 1) % HEIGHT` keeps the sign of the dividend, so it is -1 for a land pixel in row 0 while yoffset is 0, which is off the image | a land pixel (x, 0) with yoffset 0, the start-up view: the row is -1 | a non-negative remainder, which plots the pixel in the image's last row | not executed; the arithmetic is certain, but whether a map resource holds a row-0 pixel is not known here | Render.EarthPositionLeavesImage | Render.EarthPositionCorrected |

=== FILE: bucketizer.dfy ===
/**
 The geo bucketizer: a (latitude, longitude) pair in degrees becomes a grid
 cell. Each coordinate is shifted to be non-negative, rounded to the
 nearest whole degree, narrowed to a Java `int`, then scaled by grid
 cells per degree with Java's `int` multiplication and division.
 */
module Bucketizer {
  import opened JavaInt
  import opened Grid

  /** Java's `Math.round`: the nearest integer, halves rounded up. */
  function Round(x: real): (r: int)
    ensures r as real - 0.5 <= x < r as real + 0.5
  {
    (x + 0.5).Floor
  }

  /** `n * cells / degrees` in Java `int` arithmetic. */
  function Scale(n: Int32, cells: int, degrees: int): int
    requires degrees > 0
  {
    Div(Wrap(n * cells), degrees)
  }

  /** Exact division, whichever the sign of the dividend. */
  lemma DivOfMultiple(k: int, d: int)
    requires d > 0
    ensures Div(k * d, d) == k
  {
    if k < 0 {
      assert (-k) * d == -(k * d);
    }
  }

  /** The cell of an already rounded, shifted pair: `a` is the rounded
      latitude + 90 and `b` the rounded longitude + 180. As long as the
      products stay within `int` range, both scalings are exact doublings
      (720 / 360 and 360 / 180 are both 2). */
  function ClassifyRounded(a: Int32, b: Int32): (r: Cell)
    ensures InRange(a * HEIGHT) ==> r.row == 2 * a
    ensures InRange(b * WIDTH) ==> r.column == 2 * b
  {
    var latitude := Scale(a, HEIGHT, 180);
    var longitude := Scale(b, WIDTH, 360);
    DivOfMultiple(2 * a, 180);
    assert a * HEIGHT == (2 * a) * 180;
    DivOfMultiple(2 * b, 360);
    assert b * WIDTH == (2 * b) * 360;
    Cell(longitude, latitude)
  }

  /** The cell of a coordinate pair, with `Math.round`'s `long` result
      narrowed to `int` the way Java's `(int)` cast narrows it. A pair in
      range lands on the grid, in the row twice the rounded latitude + 90 and
      the column twice the rounded longitude + 180. */
  function Classify(latitude: real, longitude: real): (r: Cell)
    ensures -90.0 <= latitude <= 90.0 && -180.0 <= longitude <= 180.0 ==>
      && OnGrid(r)
      && r.row == 2 * Round(latitude + 90.0)
      && r.column == 2 * Round(longitude + 180.0)
  {
    ClassifyRounded(Wrap(Round(latitude + 90.0)), Wrap(Round(longitude + 180.0)))
  }

  /** A coordinate pair in range lands on the grid, far edges included, in
      the even row and column of the nearest whole degree: the row is twice
      the latitude + 90 rounded to the nearest degree, and the column twice
      the longitude + 180, each within half a degree of the point. Odd rows
      and columns are never used. */
  lemma ClassifyOnGrid(latitude: real, longitude: real)
    requires -90.0 <= latitude <= 90.0 && -180.0 <= longitude <= 180.0
    ensures OnGrid(Classify(latitude, longitude))
    ensures Classify(latitude, longitude).row == 2 * Round(latitude + 90.0)
    ensures Classify(latitude, longitude).column == 2 * Round(longitude + 180.0)
    ensures var c := Classify(latitude, longitude);
      && (c.row as real) / 2.0 - 0.5 <= latitude + 90.0 < (c.row as real) / 2.0 + 0.5
      && (c.column as real) / 2.0 - 0.5 <= longitude + 180.0 < (c.column as real) / 2.0 + 0.5
  {
    var a := Round(latitude + 90.0);
    var b := Round(longitude + 180.0);
    assert 0 <= a <= 180 && 0 <= b <= 360;
  }

  /** The far edges of the grid are reached: the poles and the antimeridian
      land on row HEIGHT and column WIDTH, not inside them. */
  lemma ClassifyReachesEdges()
    ensures Classify(90.0, 180.0) == Cell(WIDTH, HEIGHT)
    ensures Classify(-90.0, -180.0) == Cell(0, 0)
  {
    ClassifyOnGrid(90.0, 180.0);
    ClassifyOnGrid(-90.0, -180.0);
  }
}

=== FILE: grid.dfy ===
/**
 The fixed world grid: two cells per degree, 720 columns of longitude by
 360 rows of latitude, and the cell key the aggregation store is indexed by.
 */
module Grid {

  /** Columns: 360 degrees of longitude at two pixels per degree. */
  const WIDTH: int := 360 * 2
  /** Rows: 180 degrees of latitude at two pixels per degree. */
  const HEIGHT: int := 180 * 2

  /** A grid cell, keyed the way the store keys it: the column (from
      longitude) first, the row (from latitude) second. */
  datatype Cell = Cell(column: int, row: int)

  /** The cell lies on the grid, both far edges included (the bucketizer
      reaches them at latitude 90 and longitude 180). */
  predicate OnGrid(c: Cell) {
    0 <= c.column <= WIDTH && 0 <= c.row <= HEIGHT
  }
}

=== FILE: javaint.dfy ===
/**
 Java's 32-bit `int` arithmetic, written out over Dafny's unbounded integers.
 Dafny's `/` and `%` are Euclidean; Java's truncate toward zero, so the
 truncating forms are defined here and related to the Euclidean ones.
 */
module JavaInt {

  const MIN_INT: int := -0x8000_0000
  const MAX_INT: int := 0x7fff_ffff
  const TWO_32: int := 0x1_0000_0000

  /** A value a Java `int` can hold. */
  type Int32 = x: int | MIN_INT <= x <= MAX_INT

  predicate InRange(x: int) {
    MIN_INT <= x <= MAX_INT
  }

  /** Two's-complement wrap-around of an arbitrary integer into `int` range:
      what `+`, `*`, `<<` and a narrowing `(int)` cast do in Java. */
  function Wrap(x: int): (r: Int32)
    ensures InRange(x) ==> r == x
    ensures MAX_INT < x <= MAX_INT + TWO_32 ==> r == x - TWO_32
    ensures MIN_INT - TWO_32 <= x < MIN_INT ==> r == x + TWO_32
  {
    var m := x % TWO_32;
    if m <= MAX_INT then m else m - TWO_32
  }

  /** Java's `a % b` for `b > 0`: the remainder takes the sign of `a`. */
  function Rem(a: int, b: int): (r: int)
    requires b > 0
    ensures -b < r < b
    ensures a >= 0 ==> 0 <= r
    ensures a <= 0 ==> r <= 0
    ensures a >= 0 ==> r == a % b
  {
    if a >= 0 then a % b else -((-a) % b)
  }

  /** Java's `a / b` for `b > 0`: the quotient is rounded toward zero. */
  function Div(a: int, b: int): (r: int)
    requires b > 0
    ensures a >= 0 ==> r == a / b
    ensures r * b + Rem(a, b) == a
  {
    if a >= 0 then a / b else -((-a) / b)
  }

  /** The Euclidean quotient and remainder are the only ones: any `q`, `r`
      with `a == q * n + r` and `0 <= r < n` are `a / n` and `a % n`. */
  lemma ModUnique(a: int, n: int, q: int, r: int)
    requires n > 0 && a == q * n + r && 0 <= r < n
    ensures a % n == r && a / n == q
  {
    var d := q - a / n;
    assert a == (a / n) * n + a % n;
    assert d * n == a % n - r;
    if d >= 1 { MulAtLeast(d, n); }
    if d <= -1 { MulAtLeast(-d, n); }
  }

  /** `(a + b % n) % n` is `(a + b) % n` for the non-negative remainder. */
  lemma ModAddMod(a: int, b: int, n: int)
    requires n > 0
    ensures (a + b % n) % n == (a + b) % n
  {
    var q := b / n;
    var r := (a + b % n) / n;
    assert b == q * n + b % n;
    assert a + b % n == r * n + (a + b % n) % n;
    assert a + b == (q + r) * n + (a + b % n) % n;
    ModUnique(a + b, n, q + r, (a + b % n) % n);
  }

  /** `(a % n + b) % n` is `(a + b) % n` for the non-negative remainder. */
  lemma ModModAdd(a: int, b: int, n: int)
    requires n > 0
    ensures (a % n + b) % n == (a + b) % n
  {
    ModAddMod(b, a, n);
    assert a % n + b == b + a % n;
  }

  lemma MulAtLeast(d: int, n: int)
    requires d >= 1 && n > 0
    ensures d * n >= n
  {
  }
}

=== FILE: linepattern.dfy ===
/**
 The event classifier: a syslog line is a connection Open when the whole
 line matches `.*302013.+outside:(.+?)/.*`, a Close when it does not but
 matches the same shape with `302014`, and is otherwise not recognized.

 A whole-line match is described declaratively as a `Split` of the line,
 `A · id · B · "outside:" · C · "/" · D` with B and C non-empty, and the
 captured address is the C of the split a backtracking matcher reaches
 first: the greedy `.*` before the id takes the last usable id, the greedy
 `.+` the last usable "outside:", and the lazy `(.+?)` the first '/'.
 The search functions below find that split and are proved to find it.
 */
module LinePattern {

  /** Message id of the firewall's "Built TCP connection" log line. */
  const OPEN_ID: string := "302013"
  /** Message id of the firewall's "Teardown TCP connection" log line. */
  const CLOSE_ID: string := "302014"
  /** The interface clause that precedes the remote address. */
  const OUTSIDE: string := "outside:"

  datatype Option<T> = None | Some(value: T)

  /** What a line says about a connection. */
  datatype Event = Open(address: string) | Close(address: string) | Unrecognized

  /** The characters Java's `.` does not match without DOTALL. */
  predicate IsLineTerminator(ch: char) {
    ch == '\n' || ch == '\r' || ch == '\U{0085}' || ch == '\U{2028}' || ch == '\U{2029}'
  }

  predicate NoTerminator(line: string) {
    forall k :: 0 <= k < |line| ==> !IsLineTerminator(line[k])
  }

  /** `word` occurs in `line` starting at position `k`. */
  predicate At(line: string, k: int, word: string) {
    0 <= k && k + |word| <= |line| && line[k..k + |word|] == word
  }

  /** The line decomposes as `A · id · B · "outside:" · C · "/" · D` with
      `id` at `i`, "outside:" at `j` and the '/' at `p`; B = line[i+|id|..j]
      and C = line[j+|OUTSIDE|..p] are non-empty. */
  predicate Split(line: string, id: string, i: int, j: int, p: int) {
    && At(line, i, id)
    && i + |id| < j
    && At(line, j, OUTSIDE)
    && j + |OUTSIDE| < p < |line|
    && line[p] == '/'
  }

  /** The whole line matches the pattern built around `id`: every literal
      of the pattern is terminator-free and every other character is
      matched by `.`, so a match is a split of a terminator-free line. */
  ghost predicate FullMatch(line: string, id: string) {
    NoTerminator(line) && exists i, j, p :: Split(line, id, i, j, p)
  }

  /** The split a backtracking matcher commits to: the last `id` that can
      still be completed, then the last "outside:" after it that can, then
      the first '/' after that. */
  ghost predicate Preferred(line: string, id: string, i: int, j: int, p: int) {
    && Split(line, id, i, j, p)
    && (forall i', j', p' :: Split(line, id, i', j', p') ==> i' <= i)
    && (forall j', p' :: Split(line, id, i, j', p') ==> j' <= j)
    && (forall p' :: Split(line, id, i, j, p') ==> p <= p')
  }

  /** `address` is what the capturing group holds after the match. */
  ghost predicate PreferredCapture(line: string, id: string, address: string) {
    exists i, j, p :: Preferred(line, id, i, j, p) && address == line[j + |OUTSIDE|..p]
  }

  /** The first '/' at or after `from`: how the lazy `(.+?)` stops. */
  function FirstSlash(line: string, from: nat): (r: Option<nat>)
    ensures r.Some? ==> from <= r.value < |line| && line[r.value] == '/'
    ensures r.Some? ==> forall q :: from <= q < r.value ==> line[q] != '/'
    ensures r.None? ==> forall q :: from <= q < |line| ==> line[q] != '/'
    decreases |line| - from
  {
    if from >= |line| then None
    else if line[from] == '/' then Some(from)
    else FirstSlash(line, from + 1)
  }

  /** "outside:" at `j` can be completed: a non-empty C then a '/'. */
  predicate OutsideCompletes(line: string, j: nat) {
    At(line, j, OUTSIDE) && FirstSlash(line, j + |OUTSIDE| + 1).Some?
  }

  /** The last `j` in [lo, hi) where "outside:" can be completed: how the
      greedy `.+` backs off. */
  function LastOutside(line: string, lo: nat, hi: nat): (r: Option<nat>)
    ensures r.Some? ==> lo <= r.value < hi && OutsideCompletes(line, r.value)
    ensures r.Some? ==> forall j :: r.value < j < hi ==> !OutsideCompletes(line, j)
    ensures r.None? ==> forall j :: lo <= j < hi ==> !OutsideCompletes(line, j)
    decreases hi
  {
    if hi <= lo then None
    else if OutsideCompletes(line, hi - 1) then Some(hi - 1)
    else LastOutside(line, lo, hi - 1)
  }

  /** `id` at `i` can be completed by some "outside:" clause after it. */
  predicate IdCompletes(line: string, id: string, i: nat) {
    At(line, i, id) && LastOutside(line, i + |id| + 1, |line|).Some?
  }

  /** The last `i` below `hi` where `id` can be completed: how the greedy
      leading `.*` backs off. */
  function LastId(line: string, id: string, hi: nat): (r: Option<nat>)
    ensures r.Some? ==> r.value < hi && IdCompletes(line, id, r.value)
    ensures r.Some? ==> forall i :: r.value < i < hi ==> !IdCompletes(line, id, i)
    ensures r.None? ==> forall i :: 0 <= i < hi ==> !IdCompletes(line, id, i)
    decreases hi
  {
    if hi == 0 then None
    else if IdCompletes(line, id, hi - 1) then Some(hi - 1)
    else LastId(line, id, hi - 1)
  }

  /** In any split the "outside:" clause can be completed. */
  lemma SplitCompletesOutside(line: string, id: string, i: int, j: int, p: int)
    requires Split(line, id, i, j, p)
    ensures j >= 0 && OutsideCompletes(line, j)
  {
    assert j + |OUTSIDE| + 1 <= p < |line| && line[p] == '/';
  }

  /** In any split the message id can be completed. */
  lemma SplitCompletesId(line: string, id: string, i: int, j: int, p: int)
    requires Split(line, id, i, j, p)
    ensures 0 <= i < |line| && IdCompletes(line, id, i)
  {
    SplitCompletesOutside(line, id, i, j, p);
  }

  /** The split the matcher commits to, if the line can be split at all. */
  function FindSplit(line: string, id: string): (r: Option<(nat, nat, nat)>)
    ensures r.Some? ==> Preferred(line, id, r.value.0, r.value.1, r.value.2)
    ensures r.None? ==> forall i, j, p :: !Split(line, id, i, j, p)
  {
    match LastId(line, id, |line|)
    case None =>
      forall i, j, p | Split(line, id, i, j, p)
        ensures 0 <= i < |line| && IdCompletes(line, id, i)
      {
        SplitCompletesId(line, id, i, j, p);
      }
      None
    case Some(i) =>
      var j := LastOutside(line, i + |id| + 1, |line|).value;
      var p := FirstSlash(line, j + |OUTSIDE| + 1).value;
      assert Split(line, id, i, j, p);
      assert forall i', j', p' :: Split(line, id, i', j', p') ==> i' <= i by {
        forall i', j', p' | Split(line, id, i', j', p')
          ensures i' <= i
        {
          SplitCompletesId(line, id, i', j', p');
        }
      }
      assert forall j', p' :: Split(line, id, i, j', p') ==> j' <= j by {
        forall j', p' | Split(line, id, i, j', p')
          ensures j' <= j
        {
          SplitCompletesOutside(line, id, i, j', p');
        }
      }
      Some((i, j, p))
  }

  /** The text captured by `(.+?)` when the whole line matches. */
  function Capture(line: string, id: string): (r: Option<string>)
    ensures r.Some? <==> FullMatch(line, id)
    ensures r.Some? ==> PreferredCapture(line, id, r.value)
  {
    if !NoTerminator(line) then None
    else
      match FindSplit(line, id)
      case None => None
      case Some((i, j, p)) => Some(line[j + |OUTSIDE|..p])
  }

  /** The classifier: Open is tried first, Close only when Open fails. */
  function Parse(line: string): (e: Event)
    ensures e.Open? <==> FullMatch(line, OPEN_ID)
    ensures e.Close? <==> !FullMatch(line, OPEN_ID) && FullMatch(line, CLOSE_ID)
    ensures e.Unrecognized? <==> !FullMatch(line, OPEN_ID) && !FullMatch(line, CLOSE_ID)
    ensures e.Open? ==> PreferredCapture(line, OPEN_ID, e.address)
    ensures e.Close? ==> PreferredCapture(line, CLOSE_ID, e.address)
  {
    match Capture(line, OPEN_ID)
    case Some(address) => Open(address)
    case None =>
      match Capture(line, CLOSE_ID)
      case Some(address) => Close(address)
      case None => Unrecognized
  }

  /** A captured address is non-empty, follows "outside:" immediately, is
      immediately followed by '/', and holds no '/' after its first
      character (a lazy group stops at the first '/' it may). */
  lemma CapturedAddressShape(line: string, id: string, address: string)
    requires PreferredCapture(line, id, address)
    ensures |address| >= 1
    ensures exists k :: At(line, k, OUTSIDE + address + "/")
    ensures forall q :: 1 <= q < |address| ==> address[q] != '/'
  {
    var i, j, p :| Preferred(line, id, i, j, p) && address == line[j + |OUTSIDE|..p];
    LazyGroupStopsAtFirstSlash(line, id, i, j, p);
    SplitAddressShape(line, id, i, j, p, address);
  }

  /** The group of a split whose '/' is the first after "outside:" has the
      captured address's shape. */
  lemma SplitAddressShape(line: string, id: string, i: int, j: int, p: int, address: string)
    requires Split(line, id, i, j, p) && address == line[j + |OUTSIDE|..p]
    requires forall p' :: j + |OUTSIDE| < p' < p ==> line[p'] != '/'
    ensures |address| >= 1
    ensures exists k :: At(line, k, OUTSIDE + address + "/")
    ensures forall q :: 1 <= q < |address| ==> address[q] != '/'
  {
    var a := j + |OUTSIDE|;
    assert line[j..a] == OUTSIDE;
    assert line[j..p + 1] == line[j..a] + address + line[p..p + 1];
    assert At(line, j, OUTSIDE + address + "/");
    forall q | 1 <= q < |address|
      ensures address[q] != '/'
    {
      assert address[q] == line[a + q];
    }
  }

  /** Between the first character after "outside:" and the '/' a preferred
      split ends the group at, the line holds no '/'. */
  lemma LazyGroupStopsAtFirstSlash(line: string, id: string, i: int, j: int, p: int)
    requires Preferred(line, id, i, j, p)
    ensures forall p' :: j + |OUTSIDE| < p' < p ==> line[p'] != '/'
  {
    forall p' | j + |OUTSIDE| < p' < p
      ensures line[p'] != '/'
    {
      assert Split(line, id, i, j, p') <==> line[p'] == '/';
    }
  }

  /** Two terminator-free strings make a terminator-free line. */
  lemma NoTerminatorAppend(x: string, y: string)
    requires NoTerminator(x) && NoTerminator(y)
    ensures NoTerminator(x + y)
  {
    forall k | 0 <= k < |x + y|
      ensures !IsLineTerminator((x + y)[k])
    {
      if k < |x| {
        assert (x + y)[k] == x[k];
      } else {
        assert (x + y)[k] == y[k - |x|];
      }
    }
  }

  /** A firewall Teardown line whose connection number contains the
      digits 302013 before the "outside:" clause. */
  const TEARDOWN_WITH_OPEN_DIGITS: string :=
    "%ASA-6-" + CLOSE_ID + ": Teardown TCP connection 1" + OPEN_ID + " for " + OUTSIDE + "1.2.3.4/80"

  /** Where the pieces of the Teardown line above sit. */
  lemma TeardownLineLayout()
    ensures |TEARDOWN_WITH_OPEN_DIGITS| == 69
    ensures At(TEARDOWN_WITH_OPEN_DIGITS, 7, CLOSE_ID) && At(TEARDOWN_WITH_OPEN_DIGITS, 40, OPEN_ID)
    ensures At(TEARDOWN_WITH_OPEN_DIGITS, 51, OUTSIDE) && TEARDOWN_WITH_OPEN_DIGITS[66] == '/'
  {
    var line := TEARDOWN_WITH_OPEN_DIGITS;
    var a, b, c, d := "%ASA-6-", ": Teardown TCP connection 1", " for ", "1.2.3.4/80";
    assert line == a + CLOSE_ID + b + OPEN_ID + c + OUTSIDE + d;
    assert line[7..13] == CLOSE_ID by {
      assert line == a + CLOSE_ID + (b + OPEN_ID + c + OUTSIDE + d);
    }
    assert line[40..46] == OPEN_ID by {
      assert line == (a + CLOSE_ID + b) + OPEN_ID + (c + OUTSIDE + d);
    }
    assert line[51..59] == OUTSIDE by {
      assert line == (a + CLOSE_ID + b + OPEN_ID + c) + OUTSIDE + d;
    }
    assert line[66] == d[7];
  }

  /** The Teardown line above holds no line terminator. */
  lemma TeardownLineHasNoTerminator()
    ensures NoTerminator(TEARDOWN_WITH_OPEN_DIGITS)
  {
    var a, b, c, d := "%ASA-6-", ": Teardown TCP connection 1", " for ", "1.2.3.4/80";
    assert TEARDOWN_WITH_OPEN_DIGITS == a + CLOSE_ID + b + OPEN_ID + c + OUTSIDE + d;
    assert NoTerminator(a) && NoTerminator(CLOSE_ID) && NoTerminator(b) && NoTerminator(OPEN_ID);
    assert NoTerminator(c) && NoTerminator(OUTSIDE) && NoTerminator(d);
    NoTerminatorAppend(a, CLOSE_ID);
    NoTerminatorAppend(a + CLOSE_ID, b);
    NoTerminatorAppend(a + CLOSE_ID + b, OPEN_ID);
    NoTerminatorAppend(a + CLOSE_ID + b + OPEN_ID, c);
    NoTerminatorAppend(a + CLOSE_ID + b + OPEN_ID + c, OUTSIDE);
    NoTerminatorAppend(a + CLOSE_ID + b + OPEN_ID + c + OUTSIDE, d);
  }

  /** As written: the message id is not anchored, so the Teardown line
      above matches the Close pattern and the Open pattern alike; Open is
      tried first, so the line is classified as an Open. */
  lemma TeardownCountedAsOpen()
    ensures FullMatch(TEARDOWN_WITH_OPEN_DIGITS, CLOSE_ID)
    ensures Parse(TEARDOWN_WITH_OPEN_DIGITS).Open?
  {
    TeardownLineLayout();
    TeardownLineHasNoTerminator();
    assert Split(TEARDOWN_WITH_OPEN_DIGITS, CLOSE_ID, 7, 51, 66);
    assert Split(TEARDOWN_WITH_OPEN_DIGITS, OPEN_ID, 40, 51, 66);
  }

  /** A line in which neither 302013 nor 302014 occurs anywhere is not an
      event, whatever else it holds. */
  lemma OtherIdsUnrecognized(line: string)
    requires forall k :: !At(line, k, OPEN_ID) && !At(line, k, CLOSE_ID)
    ensures Parse(line) == Unrecognized
  {
  }
}

=== FILE: pan.dfy ===
/**
 Panning the map view: the arrow keys move the horizontal or vertical
 offset by an amount, wrapping around the grid. The offset update is
 `(offset + amount + size) % size` in Java `int` arithmetic, whose `%`
 keeps the sign of the dividend; adding `size` first is what keeps the
 offset non-negative for any amount above `-size`.
 */
module Pan {
  import opened JavaInt
  import opened Grid

  /** The view offsets the renderer adds to every plotted position. */
  datatype View = View(xoffset: Int32, yoffset: Int32)

  /** `(offset + amount + size) % size`, evaluated left to right in Java
      `int` arithmetic. When the sum neither overflows nor goes negative it
      is the offset moved by `amount`, taken modulo `size`; a sum below
      zero leaves a result in (-size, 0]. */
  function Shift(offset: Int32, amount: Int32, size: int): (r: Int32)
    requires size == WIDTH || size == HEIGHT
    ensures 0 <= offset + amount + size <= MAX_INT ==> r == (offset + amount) % size
    ensures MIN_INT <= offset + amount + size < 0 ==> -size < r <= 0
  {
    ModAddMod(offset + amount, size, size);
    Rem(Wrap(Wrap(offset + amount) + size), size)
  }

  /** An offset already on the grid stays on it for any amount above
      `-size` that does not overflow. */
  lemma ShiftStaysInRange(offset: Int32, amount: Int32, size: int)
    requires size == WIDTH || size == HEIGHT
    requires 0 <= offset < size && -size < amount && offset + amount + size <= MAX_INT
    ensures 0 <= Shift(offset, amount, size) < size
  {
  }

  /** Moving by `amount` and back by `-amount` restores the offset, for an
      amount of less than one full turn either way. */
  lemma ShiftInverse(offset: Int32, amount: Int32, size: int)
    requires size == WIDTH || size == HEIGHT
    requires 0 <= offset < size && -size < amount < size
    ensures Shift(Shift(offset, amount, size), -amount, size) == offset
  {
    var sum := offset + amount;
    var once := Shift(offset, amount, size);
    if sum < 0 {
      ModUnique(sum, size, -1, sum + size);
      ModUnique(offset + size, size, 1, offset);
    } else if sum < size {
      ModUnique(sum, size, 0, sum);
      ModUnique(offset, size, 0, offset);
    } else {
      ModUnique(sum, size, 1, sum - size);
      ModUnique(offset - size, size, -1, offset);
    }
  }

  /** Pan left or right (`panX`): only the horizontal offset moves. */
  function PanX(v: View, amount: Int32): (r: View)
    ensures r.yoffset == v.yoffset
    ensures 0 <= v.xoffset < WIDTH && -WIDTH < amount && v.xoffset + amount + WIDTH <= MAX_INT ==>
      0 <= r.xoffset < WIDTH && r.xoffset == (v.xoffset + amount) % WIDTH
  {
    View(Shift(v.xoffset, amount, WIDTH), v.yoffset)
  }

  /** Pan up or down (`panY`): only the vertical offset moves. */
  function PanY(v: View, amount: Int32): (r: View)
    ensures r.xoffset == v.xoffset
    ensures 0 <= v.yoffset < HEIGHT && -HEIGHT < amount && v.yoffset + amount + HEIGHT <= MAX_INT ==>
      0 <= r.yoffset < HEIGHT && r.yoffset == (v.yoffset + amount) % HEIGHT
  {
    View(v.xoffset, Shift(v.yoffset, amount, HEIGHT))
  }

  /** Panning right by `amount` and then left by the same amount gives
      back the view. */
  lemma PanXInverse(v: View, amount: Int32)
    requires 0 <= v.xoffset < WIDTH && -WIDTH < amount < WIDTH
    ensures PanX(PanX(v, amount), -amount) == v
  {
    ShiftInverse(v.xoffset, amount, WIDTH);
  }

  /** Panning down by `amount` and then up by the same amount gives back
      the view. */
  lemma PanYInverse(v: View, amount: Int32)
    requires 0 <= v.yoffset < HEIGHT && -HEIGHT < amount < HEIGHT
    ensures PanY(PanY(v, amount), -amount) == v
  {
    ShiftInverse(v.yoffset, amount, HEIGHT);
  }

  /** `n` presses of the right arrow, each a `panX(1)`. */
  function PanRight(v: View, n: nat): View
    decreases n
  {
    if n == 0 then v else PanX(PanRight(v, n - 1), 1)
  }

  /** One press of the right arrow moves the offset by one, modulo WIDTH. */
  lemma PanOneRight(v: View)
    requires 0 <= v.xoffset < WIDTH
    ensures PanX(v, 1) == View((v.xoffset + 1) % WIDTH, v.yoffset)
  {
  }

  /** `n` single-step pans right move the offset by `n` modulo WIDTH. */
  lemma {:induction false} PanRightMoves(v: View, n: nat)
    requires 0 <= v.xoffset < WIDTH
    ensures PanRight(v, n) == View((v.xoffset + n) % WIDTH, v.yoffset)
  {
    if n > 0 {
      PanRightMoves(v, n - 1);
      ModModAdd(v.xoffset + n - 1, 1, WIDTH);
      PanOneRight(PanRight(v, n - 1));
    } else {
      ModUnique(v.xoffset, WIDTH, 0, v.xoffset);
    }
  }

  /** WIDTH presses of the right arrow bring the view back where it
      started (the count is a parameter so that the proof does not unfold
      PanRight 720 times). */
  lemma PanRightFullTurn(v: View, n: nat)
    requires 0 <= v.xoffset < WIDTH && n == WIDTH
    ensures PanRight(v, n) == v
  {
    PanRightMoves(v, n);
    ModUnique(v.xoffset + n, WIDTH, 1, v.xoffset);
  }
}

=== FILE: parsethread.dfy ===
/**
 The hand-off between the syslog listeners and the parse thread, run
 sequentially. A listener appends a received line to the shared queue and
 notifies; the parse thread, waiting on the same lock, wakes and drains the
 whole queue. A drain stopped by a lookup exception leaves its unprocessed
 lines for the next wake; a drain that crashed leaves the thread dead, after
 which lines still queue up but the store never changes again.
 */
module ParseThread {
  import opened Store
  import opened LinePattern
  import opened Processing

  /** The shared queue, the store, and whether the parse thread still runs. */
  datatype State = State(store: Counts, queue: seq<string>, alive: bool)

  /** A listener appends one received line to the tail of the queue. */
  function Push(s: State, line: string): (r: State)
    ensures r.store == s.store && r.alive == s.alive
    ensures |r.queue| == |s.queue| + 1 && r.queue[..|s.queue|] == s.queue && r.queue[|s.queue|] == line
  {
    s.(queue := s.queue + [line])
  }

  /** The parse thread wakes and drains what is queued. */
  function Wake(s: State, geo: string -> GeoResult): (r: State)
    ensures !s.alive ==> r == s
    ensures |r.queue| <= |s.queue| && r.queue == s.queue[|s.queue| - |r.queue|..]
    ensures s.alive && |s.queue| > 0 ==> |r.queue| < |s.queue|
    ensures Positive(s.store) ==> Positive(r.store)
  {
    if !s.alive then s
    else
      match Drain(s.store, s.queue, geo)
      case Ok(m) => State(m, [], true)
      case Stopped(m, rest) => State(m, rest, true)
      case Crashed(m, rest) => State(m, rest, false)
  }

  /** A live thread woken for a single line consumes it, whatever its
      fate; a line that is not an event leaves the store as it was. */
  lemma WakeOnOneLine(m: Counts, line: string, geo: string -> GeoResult)
    ensures Wake(State(m, [line], true), geo).queue == []
    ensures Parse(line).Unrecognized? ==> Wake(State(m, [line], true), geo) == State(m, [], true)
  {
    if Parse(line).Unrecognized? {
      DrainSkipsUnrecognized(m, line, [], geo);
      assert [line] + [] == [line];
    }
  }

  /** One line arrives: it is pushed, and the notification wakes the
      parse thread. A dead thread only queues the line. A live thread with
      nothing left queued consumes the line whatever its fate, and a line
      that is not an event then leaves everything as it was. */
  function Deliver(s: State, line: string, geo: string -> GeoResult): (r: State)
    ensures !s.alive ==> r == s.(queue := s.queue + [line])
    ensures s.alive && s.queue == [] ==> r.queue == []
    ensures s.alive && s.queue == [] && Parse(line).Unrecognized? ==> r == s
    ensures Positive(s.store) ==> Positive(r.store)
  {
    var pushed := Push(s, line);
    if s.alive && s.queue == [] then
      assert pushed == State(s.store, [line], true);
      WakeOnOneLine(s.store, line, geo);
      Wake(pushed, geo)
    else
      Wake(pushed, geo)
  }

  /** Lines arrive one after another. */
  function DeliverAll(s: State, lines: seq<string>, geo: string -> GeoResult): (r: State)
    ensures Positive(s.store) ==> Positive(r.store)
    ensures !s.alive ==> !r.alive
    decreases |lines|
  {
    if |lines| == 0 then s
    else DeliverAll(Deliver(s, lines[0], geo), lines[1..], geo)
  }

  /** Once the parse thread is dead, arriving lines only queue up: the
      store stays as the crash left it. */
  lemma {:induction false} DeadThreadFreezesStore(s: State, lines: seq<string>, geo: string -> GeoResult)
    requires !s.alive
    ensures DeliverAll(s, lines, geo) == s.(queue := s.queue + lines)
    decreases |lines|
  {
    if |lines| > 0 {
      var s' := s.(queue := s.queue + [lines[0]]);
      assert Deliver(s, lines[0], geo) == s';
      assert DeliverAll(s, lines, geo) == DeliverAll(s', lines[1..], geo);
      DeadThreadFreezesStore(s', lines[1..], geo);
      assert s'.queue + lines[1..] == s.queue + lines;
    }
  }

  /** A lookup that returns null for an Open or a Close ends all counting:
      no line after it ever changes the store. */
  lemma NullLookupStopsCounting(s: State, bad: string, later: seq<string>, geo: string -> GeoResult)
    requires s.alive && s.queue == []
    requires !Parse(bad).Unrecognized? && geo(Parse(bad).address).Null?
    ensures DeliverAll(s, [bad] + later, geo).store == s.store
    ensures !DeliverAll(s, [bad] + later, geo).alive
  {
    var s1 := Deliver(s, bad, geo);
    DrainCrashesOnNullLocation(s.store, bad, [], geo);
    assert Push(s, bad).queue == [bad] + [];
    assert s1 == State(s.store, [], false);
    assert ([bad] + later)[1..] == later;
    DeadThreadFreezesStore(s1, later, geo);
  }

  /** A lookup that throws costs only its own line: the thread keeps
      running, and an Open arriving next is counted as usual. */
  lemma LookupErrorThenOpenCounts(s: State, bad: string, good: string, geo: string -> GeoResult)
    requires s.alive && s.queue == []
    requires !Parse(bad).Unrecognized? && geo(Parse(bad).address).Throws?
    requires Parse(good).Open? && geo(Parse(good).address).Found?
    ensures DeliverAll(s, [bad, good], geo) ==
      State(Increment(s.store, Locate(geo(Parse(good).address))), [], true)
  {
    var s1 := Deliver(s, bad, geo);
    DrainStopsOnLookupError(s.store, bad, [], geo);
    assert Push(s, bad).queue == [bad] + [];
    assert s1 == State(s.store, [], true);
    assert [bad, good][1..] == [good];
    var m := Increment(s.store, Locate(geo(Parse(good).address)));
    assert StepLine(s.store, good, geo) == Continue(m);
    assert [good][1..] == [];
    assert Drain(s.store, [good], geo) == Ok(m);
    assert Push(s1, good) == State(s.store, [good], true);
    var s2 := Deliver(s1, good, geo);
    assert s2 == State(m, [], true);
    assert DeliverAll(s, [bad, good], geo) == DeliverAll(s1, [good], geo);
    assert DeliverAll(s1, [good], geo) == DeliverAll(s2, [], geo);
  }

  /** Lines a stopped drain left queued are drained, ahead of the new
      line, on the wake the next arrival causes. */
  lemma LeftoverLinesDrainFirst(m: Counts, rest: seq<string>, line: string, geo: string -> GeoResult)
    ensures Deliver(State(m, rest, true), line, geo) ==
      match Drain(m, rest, geo)
      case Ok(m1) => Wake(State(m1, [line], true), geo)
      case Stopped(m1, rest1) => State(m1, rest1 + [line], true)
      case Crashed(m1, rest1) => State(m1, rest1 + [line], false)
  {
    DrainAppend(m, rest, [line], geo);
  }
}

=== FILE: pixels.dfy ===
/**
 Land pixels of the background map are stored one `int` per pixel: the
 column in the high 16 bits, the row in the low 16 (`(x << 16) | y`), and
 read back with `pixel >> 16` and `pixel & 0xffff`.

 Java's `int` bit operations are written over the value's 32-bit two's
 complement pattern, `Unsigned(x)`: `|` is bitwise over those 32 bits,
 `<< 16` multiplies and wraps, `& 0xffff` keeps the pattern's low 16 bits,
 `>>> 16` its high 16 bits, and `>> 16` is floor division by 65536 (the
 arithmetic shift copies the sign bit into the vacated bits).

 Because `>>` copies the sign bit, a column of 32768 or more, whose top
 bit lands in the sign bit of the packed word, comes back negative: the
 packing round-trips only below 32768, not for the 65536 columns its
 documentation claims. The unsigned shift `>>>` gives back every 16-bit
 column.
 */
module Pixels {
  import opened JavaInt

  /** The 32-bit pattern of a Java `int`, read as an unsigned number. */
  function Unsigned(x: Int32): (u: nat)
    ensures u < TWO_32
    ensures x >= 0 ==> u == x
    ensures x < 0 ==> u == x + TWO_32
  {
    x % TWO_32
  }

  function Pow2(k: nat): (p: nat)
    ensures p >= 1
  {
    if k == 0 then 1 else 2 * Pow2(k - 1)
  }

  /** Bitwise or of the low `n` bits of `a` and `b`. */
  function BitOr(a: nat, b: nat, n: nat): nat
    decreases n
  {
    if n == 0 then 0
    else (if a % 2 == 1 || b % 2 == 1 then 1 else 0) + 2 * BitOr(a / 2, b / 2, n - 1)
  }

  /** Or-ing in no bits keeps the `n` bits of `a`. */
  lemma {:induction false} BitOrZero(a: nat, n: nat)
    requires a < Pow2(n)
    ensures BitOr(a, 0, n) == a
    decreases n
  {
    if n > 0 {
      BitOrZero(a / 2, n - 1);
    }
  }

  /** Or-ing `b` below bit `k` into a number whose low `k` bits are zero
      adds them: the two have no bit in common. */
  lemma {:induction false} BitOrDisjoint(h: nat, b: nat, k: nat, n: nat)
    requires k <= n && b < Pow2(k) && h * Pow2(k) < Pow2(n)
    ensures BitOr(h * Pow2(k), b, n) == h * Pow2(k) + b
    decreases k
  {
    if k == 0 {
      BitOrZero(h, n);
    } else {
      var a := h * Pow2(k);
      assert a == 2 * (h * Pow2(k - 1));
      assert a % 2 == 0 && a / 2 == h * Pow2(k - 1);
      BitOrDisjoint(h, b / 2, k - 1, n - 1);
    }
  }

  lemma Pow2Values()
    ensures Pow2(16) == 0x1_0000
    ensures Pow2(32) == TWO_32
  {
    assert Pow2(8) == 0x100;
    assert Pow2(16) == 0x1_0000;
    assert Pow2(24) == 0x100_0000;
  }

  /** Wrapping a 32-bit pattern into an `int` keeps the pattern. */
  lemma UnsignedOfWrap(u: int)
    requires 0 <= u < TWO_32
    ensures Unsigned(Wrap(u)) == u
  {
  }

  /** Wrapping an `int`'s own pattern gives the `int` back. */
  lemma WrapOfUnsigned(a: Int32)
    ensures Wrap(Unsigned(a)) == a
  {
  }

  /** Java's `a | b` on `int`s. Or-ing in zero changes nothing, and when
      `b` lies in the low 16 bits and `a`'s low 16 bits are clear, the two
      patterns are simply added. */
  function Or(a: Int32, b: Int32): (r: Int32)
    ensures b == 0 ==> r == a
    ensures Unsigned(a) % 0x1_0000 == 0 && 0 <= b < 0x1_0000 ==> Unsigned(r) == Unsigned(a) + b
  {
    OrZeroBits(a);
    OrDisjointBits(a, b);
    Wrap(BitOr(Unsigned(a), Unsigned(b), 32))
  }

  /** Or-ing zero into an `int`'s pattern gives the `int` back. */
  lemma OrZeroBits(a: Int32)
    ensures Wrap(BitOr(Unsigned(a), Unsigned(0), 32)) == a
  {
    Pow2Values();
    BitOrZero(Unsigned(a), 32);
    WrapOfUnsigned(a);
  }

  /** Or-ing a 16-bit number into a pattern whose low half is clear adds it. */
  lemma OrDisjointBits(a: Int32, b: Int32)
    ensures Unsigned(a) % 0x1_0000 == 0 && 0 <= b < 0x1_0000 ==>
      Unsigned(Wrap(BitOr(Unsigned(a), Unsigned(b), 32))) == Unsigned(a) + b
  {
    if Unsigned(a) % 0x1_0000 == 0 && 0 <= b < 0x1_0000 {
      OrIntoClearLowHalf(Unsigned(a), b);
      UnsignedOfWrap(Unsigned(a) + b);
    }
  }

  /** A 32-bit pattern whose low half is clear, or-ed with a 16-bit number,
      is the sum of the two. */
  lemma OrIntoClearLowHalf(u: nat, b: nat)
    requires u < TWO_32 && u % 0x1_0000 == 0 && b < 0x1_0000
    ensures BitOr(u, b, 32) == u + b < TWO_32
  {
    Pow2Values();
    var h := u / 0x1_0000;
    assert u == h * 0x1_0000;
    assert h < 0x1_0000;
    BitOrDisjoint(h, b, 16, 32);
  }

  /** Java's `x << 16`. A 16-bit column lands in the high half of the
      pattern, the low half clear; below 32768 the `int` stays
      non-negative. */
  function ShiftLeft16(x: Int32): (r: Int32)
    ensures 0 <= x < 0x1_0000 ==> Unsigned(r) == x * 0x1_0000 && Unsigned(r) % 0x1_0000 == 0
    ensures 0 <= x < 0x8000 ==> r == x * 0x1_0000
  {
    HighHalfPattern(x);
    Wrap(x * 0x1_0000)
  }

  /** A 16-bit number times 65536, wrapped, has that number as the high
      half of its pattern and a clear low half. */
  lemma HighHalfPattern(x: int)
    ensures 0 <= x < 0x1_0000 ==>
      Unsigned(Wrap(x * 0x1_0000)) == x * 0x1_0000 && (x * 0x1_0000) % 0x1_0000 == 0
  {
    if 0 <= x < 0x1_0000 {
      UnsignedOfWrap(x * 0x1_0000);
      ModUnique(x * 0x1_0000, 0x1_0000, x, 0);
    }
  }

  /** `(x << 16) | y`: a land pixel packed into one `int`. For a 16-bit
      column and row the pattern holds the column in its high half and the
      row in its low half. */
  function Pack(x: Int32, y: Int32): (p: Int32)
    ensures 0 <= x < 0x1_0000 && 0 <= y < 0x1_0000 ==> Unsigned(p) == x * 0x1_0000 + y
  {
    Or(ShiftLeft16(x), y)
  }

  /** The column read back with the unsigned shift, `pixel >>> 16`: the
      high half of the pattern, a 16-bit number. */
  function UnpackXUnsigned(p: Int32): (x: int)
    ensures 0 <= x < 0x1_0000
    ensures x * 0x1_0000 <= Unsigned(p) < (x + 1) * 0x1_0000
  {
    Unsigned(p) / 0x1_0000
  }

  /** The column as the renderer reads it back: Java's `pixel >> 16`. The
      arithmetic shift copies the sign bit: it is the high half of the
      pattern read as a signed 16-bit number, 65536 less than the unsigned
      shift's result whenever the top bit is set. */
  function UnpackX(p: Int32): (x: int)
    ensures -0x8000 <= x < 0x8000
    ensures x == (if UnpackXUnsigned(p) < 0x8000 then UnpackXUnsigned(p) else UnpackXUnsigned(p) - 0x1_0000)
  {
    FloorShiftOfPattern(p);
    p / 0x1_0000
  }

  /** Floor division by 65536 of an `int` is the high half of its pattern,
      less 65536 when the sign bit is set. */
  lemma FloorShiftOfPattern(p: Int32)
    ensures p / 0x1_0000 == (if UnpackXUnsigned(p) < 0x8000 then UnpackXUnsigned(p) else UnpackXUnsigned(p) - 0x1_0000)
  {
    var u := UnpackXUnsigned(p);
    if p >= 0 {
      ModUnique(p, 0x1_0000, u, p - u * 0x1_0000);
    } else {
      ModUnique(p, 0x1_0000, u - 0x1_0000, Unsigned(p) - u * 0x1_0000);
    }
  }

  /** The row as the renderer reads it back: `pixel & 0xffff`, the low half
      of the pattern, which with the high half makes up the whole word. */
  function UnpackY(p: Int32): (y: int)
    ensures 0 <= y < 0x1_0000
    ensures Unsigned(p) == UnpackXUnsigned(p) * 0x1_0000 + y
  {
    Unsigned(p) % 0x1_0000
  }

  /** As written: a pixel packed from a column below 32768 and a 16-bit
      row unpacks to the same column and row. */
  lemma PackRoundTrip(x: Int32, y: Int32)
    requires 0 <= x < 0x8000 && 0 <= y < 0x1_0000
    ensures UnpackX(Pack(x, y)) == x
    ensures UnpackY(Pack(x, y)) == y
  {
    var p := Pack(x, y);
    assert p == x * 0x1_0000 + y;
    ModUnique(p, 0x1_0000, x, y);
  }

  /** As written: every column from 32768 to 65535 comes back negative,
      65536 less than it went in (column 32768 comes back as -32768); the
      row still comes back intact. */
  lemma PackRoundTripFailsAboveHalf(x: Int32, y: Int32)
    requires 0x8000 <= x < 0x1_0000 && 0 <= y < 0x1_0000
    ensures UnpackX(Pack(x, y)) == x - 0x1_0000 < 0
    ensures UnpackY(Pack(x, y)) == y
  {
    var p := Pack(x, y);
    assert p == x * 0x1_0000 + y - TWO_32;
    ModUnique(p, 0x1_0000, x - 0x1_0000, y);
    ModUnique(Unsigned(p), 0x1_0000, x, y);
  }

  /** Corrected: with the unsigned shift every 16-bit column and row
      round-trips, the full 65536 x 65536 range. */
  lemma PackRoundTripUnsigned(x: Int32, y: Int32)
    requires 0 <= x < 0x1_0000 && 0 <= y < 0x1_0000
    ensures UnpackXUnsigned(Pack(x, y)) == x
    ensures UnpackY(Pack(x, y)) == y
  {
    ModUnique(Unsigned(Pack(x, y)), 0x1_0000, x, y);
  }

  /** The two shifts agree on every non-negative word, so the corrected
      reading changes nothing for columns below 32768. */
  lemma UnsignedAgreesOnNonNegative(p: Int32)
    requires p >= 0
    ensures UnpackXUnsigned(p) == UnpackX(p)
  {
  }
}

=== FILE: processing.dfy ===
/**
 The processing loop. On each wake the parse thread removes queued lines
 one at a time, oldest first, classifies each, looks the address up and
 updates the store, until the queue is empty. The geolocation lookup is a
 parameter: for an address it is found at a coordinate, returns null (an
 I/O failure, an unknown host among them), or throws GeoIp2Exception.

 What the code does with a failed lookup differs by kind:
 - null reaches `classify`, which reads `location[0]` before any null
   check, so the NullPointerException kills the parse thread, on an Open
   line and on a Close line alike;
 - GeoIp2Exception is caught outside the draining loop: the failing line
   is already removed, the lines after it stay queued until the next wake.
 */
module Processing {
  import opened Grid
  import opened Store
  import opened Bucketizer
  import opened LinePattern

  /** The outcome of one address lookup. */
  datatype GeoResult = Found(latitude: real, longitude: real) | Null | Throws

  /** The outcome of one line. */
  datatype Step = Continue(store: Counts) | Stop | Crash

  /** The outcome of one wake's draining: the queue was emptied, a lookup
      threw and draining stopped with `rest` still queued, or the parse
      thread died with `rest` still queued. The store keeps every update
      made before the failing line. */
  datatype Outcome =
    | Ok(store: Counts)
    | Stopped(store: Counts, rest: seq<string>)
    | Crashed(store: Counts, rest: seq<string>)

  /** The cell of a lookup that found the address. */
  function Locate(g: GeoResult): Cell
    requires g.Found?
  {
    Classify(g.latitude, g.longitude)
  }

  /** One line of the draining loop. */
  function StepLine(m: Counts, line: string, geo: string -> GeoResult): (s: Step)
    ensures Parse(line).Unrecognized? ==> s == Continue(m)
    ensures Parse(line).Open? && geo(Parse(line).address).Found? ==>
      s == Continue(Increment(m, Locate(geo(Parse(line).address))))
    ensures Parse(line).Close? && geo(Parse(line).address).Found? ==>
      s == Continue(Decrement(m, Locate(geo(Parse(line).address))))
    ensures !Parse(line).Unrecognized? && geo(Parse(line).address).Null? ==> s == Crash
    ensures !Parse(line).Unrecognized? && geo(Parse(line).address).Throws? ==> s == Stop
  {
    match Parse(line)
    case Unrecognized => Continue(m)
    case Open(address) =>
      (match geo(address)
       case Found(latitude, longitude) => Continue(Increment(m, Classify(latitude, longitude)))
       case Null => Crash
       case Throws => Stop)
    case Close(address) =>
      (match geo(address)
       case Found(latitude, longitude) => Continue(Decrement(m, Classify(latitude, longitude)))
       case Null => Crash
       case Throws => Stop)
  }

  /** Drain the queue into the store, oldest line first. */
  function Drain(m: Counts, queue: seq<string>, geo: string -> GeoResult): (r: Outcome)
    ensures Positive(m) ==> Positive(r.store)
    ensures !r.Ok? ==> |r.rest| < |queue| && r.rest == queue[|queue| - |r.rest|..]
    decreases |queue|
  {
    if |queue| == 0 then Ok(m)
    else
      match StepLine(m, queue[0], geo)
      case Continue(m') => Drain(m', queue[1..], geo)
      case Stop => Stopped(m, queue[1..])
      case Crash => Crashed(m, queue[1..])
  }

  /** Draining is a left fold: draining `q1 + q2` drains `q1` first, then
      `q2` from where it left off; if `q1` stopped or crashed, all of `q2`
      is still queued behind the rest of `q1`. */
  lemma {:induction false} DrainAppend(m: Counts, q1: seq<string>, q2: seq<string>, geo: string -> GeoResult)
    ensures Drain(m, q1 + q2, geo) ==
      match Drain(m, q1, geo)
      case Ok(m1) => Drain(m1, q2, geo)
      case Stopped(m1, rest) => Stopped(m1, rest + q2)
      case Crashed(m1, rest) => Crashed(m1, rest + q2)
    decreases |q1|
  {
    if |q1| == 0 {
      assert q1 + q2 == q2;
    } else {
      var q := q1 + q2;
      assert q[0] == q1[0];
      assert q[1..] == q1[1..] + q2;
      var s := StepLine(m, q1[0], geo);
      if s.Continue? {
        assert Drain(m, q, geo) == Drain(s.store, q1[1..] + q2, geo);
        assert Drain(m, q1, geo) == Drain(s.store, q1[1..], geo);
        DrainAppend(s.store, q1[1..], q2, geo);
      }
    }
  }

  /** A line that is neither an Open nor a Close changes nothing. */
  lemma DrainSkipsUnrecognized(m: Counts, line: string, queue: seq<string>, geo: string -> GeoResult)
    requires Parse(line).Unrecognized?
    ensures Drain(m, [line] + queue, geo) == Drain(m, queue, geo)
  {
    assert ([line] + queue)[1..] == queue;
  }

  /** A lookup that throws ends the drain: the failing line is consumed
      without touching the store, the lines after it stay queued. */
  lemma DrainStopsOnLookupError(m: Counts, line: string, queue: seq<string>, geo: string -> GeoResult)
    requires !Parse(line).Unrecognized? && geo(Parse(line).address).Throws?
    ensures Drain(m, [line] + queue, geo) == Stopped(m, queue)
  {
    assert ([line] + queue)[1..] == queue;
  }

  /** A lookup that returns null kills the parse thread, Open or Close:
      the null check after `classify` is never reached. */
  lemma DrainCrashesOnNullLocation(m: Counts, line: string, queue: seq<string>, geo: string -> GeoResult)
    requires !Parse(line).Unrecognized? && geo(Parse(line).address).Null?
    ensures Drain(m, [line] + queue, geo) == Crashed(m, queue)
  {
    assert ([line] + queue)[1..] == queue;
  }

  /** An Open followed by the Close of the same address, located at the
      same coordinate, leaves the store as it was. */
  lemma OpenThenCloseRestores(m: Counts, open: string, close: string, geo: string -> GeoResult)
    requires Positive(m)
    requires Parse(open).Open? && Parse(close).Close?
    requires Parse(open).address == Parse(close).address
    requires geo(Parse(open).address).Found?
    ensures Drain(m, [open, close], geo) == Ok(m)
  {
    var c := Locate(geo(Parse(open).address));
    var m1 := Increment(m, c);
    assert StepLine(m, open, geo) == Continue(m1);
    assert StepLine(m1, close, geo) == Continue(Decrement(m1, c));
    assert [open, close][1..] == [close];
    assert Drain(m, [open, close], geo) == Drain(m1, [close], geo);
    assert [close][1..] == [];
    assert Drain(m1, [close], geo) == Ok(Decrement(m1, c));
    DecrementUndoesIncrement(m, c);
  }

  /** A Close for a cell no Open was counted in changes nothing. */
  lemma UnmatchedCloseIsNoOp(m: Counts, close: string, geo: string -> GeoResult)
    requires Parse(close).Close? && geo(Parse(close).address).Found?
    requires Locate(geo(Parse(close).address)) !in m
    ensures Drain(m, [close], geo) == Ok(m)
  {
    assert [close][1..] == [];
  }

  /** The multiset of cells the lines of `queue` leave open, starting from
      `open`, as long as every lookup is found: each Open adds its cell,
      each Close removes one occurrence of its cell if there is one. */
  ghost function OpenCells(open: multiset<Cell>, queue: seq<string>, geo: string -> GeoResult): multiset<Cell>
    decreases |queue|
  {
    if |queue| == 0 then open
    else
      var e := Parse(queue[0]);
      var open' :=
        if e.Unrecognized? || !geo(e.address).Found? then open
        else if e.Open? then open + multiset{Locate(geo(e.address))}
        else open - multiset{Locate(geo(e.address))};
      OpenCells(open', queue[1..], geo)
  }

  /** A drain that empties the queue leaves the store counting exactly the
      connections left open: a cell is present iff some are open in it. */
  lemma {:induction false} DrainRefines(m: Counts, open: multiset<Cell>, queue: seq<string>, geo: string -> GeoResult)
    requires Represents(m, open)
    requires Drain(m, queue, geo).Ok?
    ensures Represents(Drain(m, queue, geo).store, OpenCells(open, queue, geo))
    decreases |queue|
  {
    if |queue| > 0 {
      var e := Parse(queue[0]);
      if e.Unrecognized? {
        DrainRefines(m, open, queue[1..], geo);
      } else {
        var c := Locate(geo(e.address));
        if e.Open? {
          IncrementRefines(m, open, c);
          DrainRefines(Increment(m, c), open + multiset{c}, queue[1..], geo);
        } else {
          DecrementRefines(m, open, c);
          DrainRefines(Decrement(m, c), open - multiset{c}, queue[1..], geo);
        }
      }
    }
  }
}

=== FILE: render.dfy ===
/**
 Where the renderer plots things on the WIDTH x HEIGHT image.

 A counted cell is drawn at `((column + xoffset) % WIDTH,
 (HEIGHT - row + yoffset) % HEIGHT)`: rows count latitude up from the south
 pole while image rows count down from the top, hence `HEIGHT - row`. A land
 pixel of the background map is drawn at `((x + xoffset + 20) % WIDTH,
 (y + yoffset - 1) % HEIGHT)`, the constants correcting an alignment error
 of the map data. All of it is Java `int` arithmetic, with a `%` that keeps
 the sign of the dividend.

 The counted cells always land on the image. The land pixels need not: a
 pixel in row 0 with a vertical offset of 0 gives -1, which is outside the
 image (`setRGB` rejects it). The corrected position takes the remainder
 non-negatively, and reads the column back with the unsigned shift.
 */
module Render {
  import opened JavaInt
  import opened Grid
  import opened Pan
  import opened Pixels

  /** An image coordinate. */
  datatype Point = Point(x: int, y: int)

  /** The point is a pixel of the WIDTH x HEIGHT image. */
  predicate OnImage(q: Point) {
    0 <= q.x < WIDTH && 0 <= q.y < HEIGHT
  }

  /** Moving by `b` and then by `a` modulo `n` is moving by `b` modulo `n`
      and then by `a`. */
  lemma ShiftThenMod(c: int, b: int, a: int, n: int)
    requires n > 0
    ensures (c + (b + a) % n) % n == ((c + b) % n + a) % n
  {
    ModAddMod(c, b + a, n);
    ModModAdd(c + b, a, n);
  }

  /** The image column of a counted cell: its grid column moved by the
      horizontal offset, modulo the image width. */
  function CellColumn(column: Int32, xoffset: Int32): (x: int)
    ensures 0 <= column <= WIDTH && 0 <= xoffset < WIDTH ==> x == (column + xoffset) % WIDTH
  {
    Rem(Wrap(column + xoffset), WIDTH)
  }

  /** The image row of a counted cell: its grid row flipped and moved by
      the vertical offset, modulo the image height. */
  function CellRow(row: Int32, yoffset: Int32): (y: int)
    ensures 0 <= row <= HEIGHT && 0 <= yoffset < HEIGHT ==> y == (HEIGHT - row + yoffset) % HEIGHT
  {
    Rem(Wrap(Wrap(HEIGHT - row) + yoffset), HEIGHT)
  }

  /** The position of a counted cell (`renderImage`'s second loop). Every
      cell on the grid lands on the image for offsets on the image, at its
      column and its flipped row moved by the offsets, modulo the image
      size. */
  function CellPosition(c: Cell, v: View): (r: Point)
    requires InRange(c.column) && InRange(c.row)
    ensures OnGrid(c) && 0 <= v.xoffset < WIDTH && 0 <= v.yoffset < HEIGHT ==>
      && OnImage(r)
      && r.x == (c.column + v.xoffset) % WIDTH
      && r.y == (HEIGHT - c.row + v.yoffset) % HEIGHT
  {
    Point(CellColumn(c.column, v.xoffset), CellRow(c.row, v.yoffset))
  }

  /** Moving the horizontal offset by `amount`, modulo the image width,
      moves a cell's image column by `amount`, modulo the width. */
  lemma CellColumnMoves(column: Int32, xoffset: Int32, amount: int)
    requires 0 <= column <= WIDTH && 0 <= xoffset < WIDTH
    ensures CellColumn(column, (xoffset + amount) % WIDTH) == (CellColumn(column, xoffset) + amount) % WIDTH
  {
    ShiftThenMod(column, xoffset, amount, WIDTH);
  }

  /** Moving the vertical offset by `amount`, modulo the image height,
      moves a cell's image row by `amount`, modulo the height. */
  lemma CellRowMoves(row: Int32, yoffset: Int32, amount: int)
    requires 0 <= row <= HEIGHT && 0 <= yoffset < HEIGHT
    ensures CellRow(row, (yoffset + amount) % HEIGHT) == (CellRow(row, yoffset) + amount) % HEIGHT
  {
    ShiftThenMod(HEIGHT - row, yoffset, amount, HEIGHT);
  }

  /** A view whose horizontal offset is moved by `amount`, modulo the
      image width, plots every counted cell `amount` columns further,
      modulo the width, in the same row. */
  lemma ColumnShiftedView(c: Cell, v: View, w: View, amount: int)
    requires OnGrid(c) && 0 <= v.xoffset < WIDTH && 0 <= v.yoffset < HEIGHT
    requires w == View((v.xoffset + amount) % WIDTH, v.yoffset)
    ensures CellPosition(c, w) == Point((CellPosition(c, v).x + amount) % WIDTH, CellPosition(c, v).y)
  {
    CellColumnMoves(c.column, v.xoffset, amount);
  }

  /** A view whose vertical offset is moved by `amount`, modulo the image
      height, plots every counted cell `amount` rows further, modulo the
      height, in the same column. */
  lemma RowShiftedView(c: Cell, v: View, w: View, amount: int)
    requires OnGrid(c) && 0 <= v.xoffset < WIDTH && 0 <= v.yoffset < HEIGHT
    requires w == View(v.xoffset, (v.yoffset + amount) % HEIGHT)
    ensures CellPosition(c, w) == Point(CellPosition(c, v).x, (CellPosition(c, v).y + amount) % HEIGHT)
  {
    CellRowMoves(c.row, v.yoffset, amount);
  }

  /** Panning horizontally by `amount` moves every counted cell `amount`
      pixels across the image, wrapping around, and leaves its height
      alone. */
  lemma PanMovesCells(c: Cell, v: View, amount: Int32)
    requires OnGrid(c) && 0 <= v.xoffset < WIDTH && 0 <= v.yoffset < HEIGHT
    requires -WIDTH < amount < WIDTH
    ensures CellPosition(c, PanX(v, amount)).x == (CellPosition(c, v).x + amount) % WIDTH
    ensures CellPosition(c, PanX(v, amount)).y == CellPosition(c, v).y
  {
    ColumnShiftedView(c, v, PanX(v, amount), amount);
  }

  /** Panning vertically by `amount` moves every counted cell `amount`
      pixels up or down the image, wrapping around, and leaves its column
      alone. */
  lemma PanMovesCellsVertically(c: Cell, v: View, amount: Int32)
    requires OnGrid(c) && 0 <= v.xoffset < WIDTH && 0 <= v.yoffset < HEIGHT
    requires -HEIGHT < amount < HEIGHT
    ensures CellPosition(c, PanY(v, amount)).y == (CellPosition(c, v).y + amount) % HEIGHT
    ensures CellPosition(c, PanY(v, amount)).x == CellPosition(c, v).x
  {
    RowShiftedView(c, v, PanY(v, amount), amount);
  }

  /** The grid's two edge rows, latitude -90 and latitude 90, are drawn in
      the same image row, and so are its two edge columns, longitude -180
      and longitude 180: the grid has one row and one column more than the
      image. */
  lemma EdgesShareImageLines(column: int, row: int, v: View)
    requires 0 <= column <= WIDTH && 0 <= row <= HEIGHT
    requires 0 <= v.xoffset < WIDTH && 0 <= v.yoffset < HEIGHT
    ensures CellPosition(Cell(column, 0), v).y == CellPosition(Cell(column, HEIGHT), v).y
    ensures CellPosition(Cell(0, row), v).x == CellPosition(Cell(WIDTH, row), v).x
  {
    ModAddMod(v.yoffset, HEIGHT, HEIGHT);
    ModAddMod(v.xoffset, WIDTH, WIDTH);
  }

  /** The image column of a land pixel as written: its column moved by
      the horizontal offset and the alignment constant 20, in `int`
      arithmetic, with the sign-keeping remainder. For a column below 32768
      nothing overflows and the remainder is the non-negative one. */
  function LandColumn(x: Int32, xoffset: Int32): (c: int)
    ensures 0 <= x < 0x8000 && 0 <= xoffset < WIDTH ==> c == (x + xoffset + 20) % WIDTH
  {
    Rem(Wrap(Wrap(x + xoffset) + 20), WIDTH)
  }

  /** The image row of a land pixel as written: its row moved by the
      vertical offset and the alignment constant -1, with the sign-keeping
      remainder. It is -1 when the row and the offset are both 0. */
  function LandRow(y: Int32, yoffset: Int32): (r: int)
    ensures 0 <= y < 0x1_0000 && 0 <= yoffset < HEIGHT ==>
      r == if y + yoffset == 0 then -1 else (y + yoffset - 1) % HEIGHT
  {
    Rem(Wrap(Wrap(y + yoffset) - 1), HEIGHT)
  }

  /** As written: the position of a land pixel (`renderImage`'s first
      loop), with the column read back by `>> 16`. */
  function EarthPosition(p: Int32, v: View): (r: Point)
    ensures 0 <= p && 0 <= v.xoffset < WIDTH ==> 0 <= r.x < WIDTH
  {
    Point(LandColumn(UnpackX(p), v.xoffset), LandRow(UnpackY(p), v.yoffset))
  }

  /** As written: a land pixel of the image's size, packed, is drawn off the
      image exactly when its row and the vertical offset are both 0; it is
      then drawn in row -1. */
  lemma EarthPositionLeavesImage(x: Int32, y: Int32, v: View)
    requires 0 <= x < WIDTH && 0 <= y < HEIGHT
    requires 0 <= v.xoffset < WIDTH && 0 <= v.yoffset < HEIGHT
    ensures !OnImage(EarthPosition(Pack(x, y), v)) <==> y == 0 && v.yoffset == 0
    ensures y == 0 && v.yoffset == 0 ==> EarthPosition(Pack(x, y), v).y == -1
  {
    PackRoundTrip(x, y);
  }

  /** Corrected: the column read back by `>>> 16` and both remainders taken
      non-negatively. */
  function EarthPositionCorrected(p: Int32, v: View): (r: Point)
    ensures OnImage(r)
  {
    var x := UnpackXUnsigned(p);
    var y := UnpackY(p);
    Point((x + v.xoffset + 20) % WIDTH, (y + v.yoffset - 1) % HEIGHT)
  }

  /** The corrected position moves the land pixel by the alignment
      constants and the offsets, modulo the image size, for every 16-bit
      column and row. */
  lemma EarthPositionCorrectedMoves(x: Int32, y: Int32, v: View)
    requires 0 <= x < 0x1_0000 && 0 <= y < 0x1_0000
    ensures EarthPositionCorrected(Pack(x, y), v) ==
      Point((x + v.xoffset + 20) % WIDTH, (y + v.yoffset - 1) % HEIGHT)
  {
    PackRoundTripUnsigned(x, y);
  }

  /** For every non-negative packed word, wherever the position as written
      lands on the image, the corrected position agrees with it. */
  lemma EarthPositionsAgreeOnWord(p: Int32, v: View)
    requires p >= 0
    requires 0 <= v.xoffset < WIDTH && 0 <= v.yoffset < HEIGHT
    requires OnImage(EarthPosition(p, v))
    ensures EarthPosition(p, v) == EarthPositionCorrected(p, v)
  {
    UnsignedAgreesOnNonNegative(p);
  }

  /** Wherever the position as written lands on the image, the corrected
      position agrees with it, for every pixel packed from a column below
      32768 and a 16-bit row. */
  lemma EarthPositionAgreesOnImage(x: Int32, y: Int32, v: View)
    requires 0 <= x < 0x8000 && 0 <= y < 0x1_0000
    requires 0 <= v.xoffset < WIDTH && 0 <= v.yoffset < HEIGHT
    requires OnImage(EarthPosition(Pack(x, y), v))
    ensures EarthPosition(Pack(x, y), v) == EarthPositionCorrected(Pack(x, y), v)
  {
    assert Pack(x, y) >= 0;
    EarthPositionsAgreeOnWord(Pack(x, y), v);
  }
}

=== FILE: store.dfy ===
/**
 The aggregation store: for each grid cell, the number of connections
 currently open to an address located in it. A cell whose count would
 fall to zero is removed, so absence means zero.

 The store is related to an independent reference model, the multiset of
 cells of the open connections: `Increment` adds one occurrence of the
 cell, `Decrement` removes one if there is one.
 */
module Store {
  import opened Grid

  type Counts = map<Cell, int>

  /** The number of open connections counted for `c`; an absent cell counts 0. */
  function Count(m: Counts, c: Cell): int {
    if c in m then m[c] else 0
  }

  /** Every stored count is at least one: zero is never kept as an entry. */
  ghost predicate Positive(m: Counts) {
    forall c :: c in m ==> m[c] >= 1
  }

  /** Record one more open connection in cell `c`. */
  function Increment(m: Counts, c: Cell): (r: Counts)
    ensures r.Keys == m.Keys + {c}
    ensures Count(r, c) == Count(m, c) + 1
    ensures forall k :: k != c ==> Count(r, k) == Count(m, k)
    ensures Positive(m) && Count(m, c) >= 0 ==> Positive(r)
  {
    var value := 1 + (if c in m then m[c] else 0);
    m[c := value]
  }

  /** Record one connection closed in cell `c`: nothing happens when the
      cell is absent, the entry goes when its count is one, and otherwise
      the count drops by one. */
  function Decrement(m: Counts, c: Cell): (r: Counts)
    ensures c !in m ==> r == m
    ensures c in m && m[c] == 1 ==> r.Keys == m.Keys - {c}
    ensures c in m && m[c] != 1 ==> r.Keys == m.Keys && r[c] == m[c] - 1
    ensures forall k :: k != c ==> Count(r, k) == Count(m, k)
    ensures Positive(m) ==> Positive(r)
  {
    if c in m then
      var value := m[c];
      if value == 1 then m - {c} else m[c := value - 1]
    else
      m
  }

  /** Closing a connection right after opening one in the same cell gives
      back the store as it was, provided no zero entry was stored. */
  lemma DecrementUndoesIncrement(m: Counts, c: Cell)
    requires c in m ==> m[c] >= 1
    ensures Decrement(Increment(m, c), c) == m
  {
    var r := Decrement(Increment(m, c), c);
    assert r.Keys == m.Keys;
    forall k | k in m
      ensures r[k] == m[k]
    {
      assert Count(r, k) == Count(m, k);
    }
  }

  /** `m` counts exactly the occurrences of each cell in `open`. */
  ghost predicate Represents(m: Counts, open: multiset<Cell>) {
    Positive(m) && forall c :: Count(m, c) == open[c]
  }

  /** A positive store holds a cell exactly when the reference multiset does. */
  lemma RepresentsMembership(m: Counts, open: multiset<Cell>, c: Cell)
    requires Represents(m, open)
    ensures c in m <==> c in open
  {
    assert Count(m, c) == open[c];
  }

  /** Incrementing adds one occurrence to the reference multiset. */
  lemma IncrementRefines(m: Counts, open: multiset<Cell>, c: Cell)
    requires Represents(m, open)
    ensures Represents(Increment(m, c), open + multiset{c})
  {
    var r := Increment(m, c);
    assert Count(m, c) == open[c];
    forall k
      ensures Count(r, k) == (open + multiset{c})[k]
    {
      assert Count(m, k) == open[k];
    }
  }

  /** Decrementing removes one occurrence from the reference multiset, and
      nothing when the cell has none: no count ever goes negative. */
  lemma DecrementRefines(m: Counts, open: multiset<Cell>, c: Cell)
    requires Represents(m, open)
    ensures Represents(Decrement(m, c), open - multiset{c})
  {
    var r := Decrement(m, c);
    assert Count(m, c) == open[c];
    forall k
      ensures Count(r, k) == (open - multiset{c})[k]
    {
      assert Count(m, k) == open[k];
    }
  }
}
